=== FILE: README.md ===
# maybe-this-time in Dafny

A model of `Maybe<T>`, the optional-value container of the maybe-this-time
library, together with proofs about it. An instance either holds a value or
is empty, and empty means that its stored slot is `null` or `undefined`.
Instances are built by `Maybe.of` and `Maybe.none`. The class offers:

- presence queries: `isNone`, `hasValue`;
- an unwrap that throws on an empty Maybe: `value`;
- fallbacks: `orElse`, `orValue`, `orNull`;
- transformations: `map`, `bind`, `filter`, `orNoneIf`;
- aliases bound at construction: `isSome`, `isNothing`, `some`, `orSome`, and `flatMap` from the Monad base class.

The repository has two revisions of the class, and each has its own module:

- `DistMaybe` (`dist_maybe.dfy`) models the compiled dist/Maybe.js, the
  fuller revision. An instance holds `_value` and the flag `_isValue`. A
  subset type keeps the two consistent, as the constructor leaves them.
- `SrcMaybe` (`src_maybe.dfy`) models src/Maybe.ts, the smaller revision.
  It has no `bind`, `orNull`, `orNoneIf` or aliases, and its presence
  queries read `_value` directly.

Shared vocabulary lives in `JsValues` (`js_values.dfy`):

- a slot value is `Undefined`, `Null` or `Val(x)`;
- the untyped argument of `of` is `Plain(value)` or `Wrapped(maybe)`. The
  tag stands in for the runtime `instanceof Maybe` test, on the assumption
  that a `Plain` argument never carries a Maybe instance (see "## Left out");
- the exception thrown by `value()` is the `EmptyValueAccess` case of
  `Unwrap`.

Transforms and predicates are Dafny function values. A `map` transform
returns an `of` argument, so it may return a nullish value, a plain value
or a Maybe.

`Reference` (`reference.dfy`) restates the container as the tagged variant
`None | Some(v)`. `Refinement` (`refinement.dfy`) proves that the dist
object model is a faithful representation of it: the abstraction is a
bijection and every operation commutes with it. `Agreement`
(`agreement.dfy`) proves that the two revisions give equal results for
every operation they share. `Scenarios` (`scenarios.dfy`) restates the
concrete cases of the test suite.

Where the class returns `this`, the model returns the receiver's value,
and results are compared by value. So a fresh empty Maybe and the empty
receiver are the same thing here. When `map` or `bind` hands back an empty
receiver at a different result type, `Recast` gives the same fields at
that type.

`orValue` throws when the receiver is empty and the fallback resolves to
an empty Maybe (dist/Maybe.js:91-93); the model returns `EmptyValueAccess`
in exactly that case.

## Model

| member | source | states |
|---|---|---|
| DistMaybe.New | dist/Maybe.js:27-37 | the flag is set exactly when the argument is a payload; a missing/undefined argument is stored as null, a payload as itself |
| DistMaybe.IsNone | dist/Maybe.js:42-44 | empty exactly when the stored slot is nullish, which for a constructed instance means exactly when it is null |
| DistMaybe.HasValue | dist/Maybe.js:49-51 | present exactly when the slot holds a payload; always the opposite of isNone |
| DistMaybe.Value | dist/Maybe.js:56-61 | fails with the empty-value error exactly when the Maybe is empty; otherwise yields the stored payload |
| DistMaybe.Recast | dist/Maybe.js:68 | the empty receiver handed back at another result type is still empty |
| DistMaybe.Bind | dist/Maybe.js:67-69 | on a present Maybe the result is the function's own Maybe, not rewrapped; on an empty one the result is empty |
| DistMaybe.FlatMap | src/Monad.ts:2 | the flatMap alias behaves as bind: the function's Maybe when present, empty when empty |
| DistMaybe.Map | dist/Maybe.js:75-77 | empty stays empty; a Maybe returned by the transform is the result itself; a nullish result empties the Maybe and a payload result is held |
| DistMaybe.OrElse | dist/Maybe.js:83-85 | a present receiver is returned; otherwise a Maybe fallback is returned itself and a plain fallback is present exactly when it is a payload |
| DistMaybe.OrValue | dist/Maybe.js:91-93 | yields the receiver's value, else the fallback's value; fails exactly when both receiver and resolved fallback are empty |
| DistMaybe.OrNull | dist/Maybe.js:98-100 | never fails and always equals the stored slot; null exactly when the Maybe is empty |
| DistMaybe.Filter | dist/Maybe.js:106-109 | present exactly when the receiver is present and the predicate accepts its value; then it is the receiver, otherwise the empty Maybe |
| DistMaybe.OrNoneIf | dist/Maybe.js:115-117 | a flag of true, or a Maybe holding true, gives the empty Maybe; false, a Maybe of false, an empty Maybe or a nullish flag give the receiver |
| DistMaybe.Of | dist/Maybe.js:125-128 | a Maybe argument is returned unchanged; a plain argument gives a Maybe present exactly when it is a payload, holding that payload |
| DistMaybe.None | dist/Maybe.js:135-137 | an empty Maybe whose slot is null |
| DistMaybe.IsSome | dist/Maybe.js:31 | the isSome alias answers as hasValue: true exactly when the slot holds a payload |
| DistMaybe.IsNothing | dist/Maybe.js:34 | the isNothing alias answers as isNone: true exactly when the slot is nullish |
| DistMaybe.Some | dist/Maybe.js:33 | the some alias unwraps as value: fails exactly on an empty Maybe, else yields the payload |
| DistMaybe.OrSome | dist/Maybe.js:32 | the orSome alias behaves as orValue: the receiver's value when present, else the payload fallback or the fallback Maybe's value, failing exactly when receiver and fallback are empty |
| DistMaybe.MapSequence | src/Maybe.spec.ts:107-126 | successive maps from an empty Maybe return that same empty Maybe |
| DistMaybe.MapNoneIsReceiver | dist/Maybe.js:76 | with the same payload type, map on an empty Maybe returns the receiver |
| DistMaybe.BindNoneIsReceiver | dist/Maybe.js:68 | with the same payload type, bind on an empty Maybe returns the receiver |
| DistMaybe.OfIdempotent | dist/Maybe.js:125-128 | of(of(x)) equals of(x) for every argument |
| DistMaybe.OfNullishIsNone | dist/Maybe.js:125-137 | of(), of(undefined) and of(null) all equal none() |
| DistMaybe.OfValueRoundTrip | dist/Maybe.js:56-61 | for every payload v, of(v) is present and of(v).value() is v |
| DistMaybe.MapComposes | dist/Maybe.js:75-77 | two maps whose transforms return payloads compose: of(v).map(f).map(g).value() is g(f(v)) |
| DistMaybe.FilterKeepsNone | dist/Maybe.js:106-109 | filter never makes an empty Maybe present, whatever the predicate |
| DistMaybe.MapSequenceAppend | src/Maybe.spec.ts:107-116 | mapping with a concatenation of transforms is mapping with the first part, then with the second |
| DistMaybe.NullTransformEmpties | src/Maybe.spec.ts:118-125 | a transform that returns a nullish value empties the Maybe, and every later map keeps it empty |
| SrcMaybe.New | src/Maybe.ts:2 | the parameter defaults to null: a payload is stored as itself, a nullish argument as null |
| SrcMaybe.IsNone | src/Maybe.ts:4-6 | empty exactly when the slot is null, i.e. exactly when it holds no payload |
| SrcMaybe.HasValue | src/Maybe.ts:8-10 | present exactly when the slot holds a payload |
| SrcMaybe.Value | src/Maybe.ts:12-18 | fails with the empty-value error exactly when the slot is null, else yields the stored payload |
| SrcMaybe.Map | src/Maybe.ts:20-22 | an empty receiver gives an equal empty Maybe; a Maybe returned by the transform is the result; a nullish result empties the Maybe, a payload is held |
| SrcMaybe.OrElse | src/Maybe.ts:24-26 | a present receiver is returned; otherwise a Maybe fallback is returned itself, a payload fallback is held, and a nullish fallback gives the empty Maybe |
| SrcMaybe.OrValue | src/Maybe.ts:28-30 | the receiver's value; else a payload fallback; else the fallback Maybe's value; a nullish fallback on an empty receiver fails |
| SrcMaybe.Filter | src/Maybe.ts:32-34 | present exactly when the receiver is present and accepted by the predicate; then it is the receiver, otherwise the empty Maybe |
| SrcMaybe.Of | src/Maybe.ts:36-38 | a Maybe argument is returned unchanged; a plain argument gives a Maybe present exactly when it is a payload |
| SrcMaybe.None | src/Maybe.ts:40-42 | an empty Maybe whose slot is null |
| SrcMaybe.OfIdempotent | src/Maybe.ts:36-38 | of(of(x)) equals of(x) for every argument |
| Reference.Of | dist/Maybe.js:125-128 | a Maybe argument is returned itself; a plain argument is Some exactly when it is a payload, holding it |
| Reference.Value | dist/Maybe.js:56-61 | the empty-value error exactly on None; otherwise the held value |
| Reference.Bind | dist/Maybe.js:67-69 | on Some the function's own result, not rewrapped; None stays None |
| Reference.Map | dist/Maybe.js:75-77 | None stays None; on Some a Maybe result is returned itself, a plain result is Some exactly when it is a payload, holding it |
| Reference.OrElse | dist/Maybe.js:83-85 | the receiver when Some; present exactly when the receiver or the resolved fallback is; a Maybe fallback is returned itself and a payload fallback is held |
| Reference.OrValue | dist/Maybe.js:91-93 | the receiver's value when Some, else a payload fallback, else a present fallback Maybe's value; the error exactly when receiver and resolved fallback are both None |
| Reference.OrNull | dist/Maybe.js:98-100 | null exactly on None, otherwise the payload; never undefined |
| Reference.Filter | dist/Maybe.js:106-109 | Some exactly when the receiver is Some and accepted, and then it is the receiver |
| Reference.OrNoneIf | dist/Maybe.js:115-117 | a flag of true or a Maybe holding true gives None; every other flag gives the receiver |
| Refinement.Abs | dist/Maybe.js:35 | an instance stands for Some of its payload exactly when its flag is set |
| Refinement.Concrete | dist/Maybe.js:125-137 | the instance built for a reference value is present exactly for Some, holding that value |
| Refinement.AbsArg | dist/Maybe.js:127 | a plain argument is kept, a wrapped Maybe is read as its reference value |
| Refinement.ConcreteAbs | dist/Maybe.js:27-37 | an instance is determined by the reference value it stands for |
| Refinement.AbsConcrete | dist/Maybe.js:27-37 | building an instance from a reference value and reading it back is the identity |
| Refinement.OfRefines | dist/Maybe.js:125-128 | of agrees with the tagged-variant of |
| Refinement.NoneRefines | dist/Maybe.js:135-137 | none stands for None |
| Refinement.ValueRefines | dist/Maybe.js:56-61 | value agrees with unwrapping the tagged variant |
| Refinement.BindRefines | dist/Maybe.js:67-69 | bind agrees with bind on the tagged variant |
| Refinement.MapRefines | dist/Maybe.js:75-77 | map agrees with map on the tagged variant |
| Refinement.OrElseRefines | dist/Maybe.js:83-85 | orElse agrees with orElse on the tagged variant |
| Refinement.OrValueRefines | dist/Maybe.js:91-93 | orValue agrees with orValue on the tagged variant |
| Refinement.OrNullRefines | dist/Maybe.js:98-100 | orNull agrees with orNull on the tagged variant |
| Refinement.FilterRefines | dist/Maybe.js:106-109 | filter agrees with filter on the tagged variant |
| Refinement.OrNoneIfRefines | dist/Maybe.js:115-117 | orNoneIf agrees with orNoneIf on the tagged variant |
| Agreement.SameIsEquality | dist/Maybe.js:35 | two dist instances holding the same slot are equal, since the slot fixes the flag |
| Agreement.OfAgrees | src/Maybe.ts:36-38 | of in both revisions yields instances holding the same slot |
| Agreement.NoneAgrees | src/Maybe.ts:40-42 | none in both revisions holds the same slot |
| Agreement.QueriesAgree | src/Maybe.ts:4-18 | isNone, hasValue and value answer the same in both revisions |
| Agreement.MapAgrees | src/Maybe.ts:20-22 | map agrees between revisions, although src builds a fresh empty Maybe where dist returns the receiver |
| Agreement.OrElseAgrees | src/Maybe.ts:24-26 | orElse agrees between revisions |
| Agreement.OrValueAgrees | src/Maybe.ts:28-30 | orValue agrees between revisions, in its failures too |
| Agreement.FilterAgrees | src/Maybe.ts:32-34 | filter agrees between revisions, although dist goes through bind |
| Scenarios.PresenceQueries | src/Maybe.spec.ts:6-36 | of(10) holds 10 and is present; none() is empty and value() on it fails |
| Scenarios.BindReturnsInnerMaybe | src/Maybe.spec.ts:38-42 | of(10).bind(v => of(5)).value() is 5 |
| Scenarios.MapOnce | src/Maybe.spec.ts:44-54 | of(10).map(v => v + 5) holds 15; mapping none() stays empty |
| Scenarios.ElseFallbacks | src/Maybe.spec.ts:56-74 | none().orElse(10) holds 10, of(15).orElse(10) holds 15; orNull gives null for none() and 10 for of(10) |
| Scenarios.ValueFallbacks | src/Maybe.spec.ts:97-105 | of(10).orValue(15) is 10 and none().orValue(15) is 15 |
| Scenarios.FilterByType | src/Maybe.spec.ts:76-85 | filtering by "is a number" keeps of(10) and empties of('test') and none() |
| Scenarios.NoneIfFlag | src/Maybe.spec.ts:87-95 | orNoneIf(true) empties of(10); orNoneIf(false) keeps 10 |
| Scenarios.ChainedMaps | src/Maybe.spec.ts:107-126 | maps by +5, -10, +100 from of(10) give a present 105; a null-returning map in the middle gives an empty Maybe |

## Left out

- The `__extends` helper, prototype set-up and `Object.defineProperty` plumbing of the compiled file carry no behaviour of their own.
- The Monad base class beyond the `flatMap` alias: src/Monad.ts and dist/Monad.d.ts hold only abstract signatures. Their `chain` is an abstract array-of-transforms method in one and an alias of `map` in the other, with no implementation anywhere, so it is not modelled.
- dist/Maybe.d.ts holds type declarations only; the model's signatures follow it.
- The aliases are bound per instance with `.bind(this)` closures; the model has plain functions instead, since the closures allocate but compute nothing of their own.
- Object identity is not modelled: an operation returning `this` and one returning a fresh equal instance give the same value.
- The text of the thrown error message is not modelled; the error is the single `EmptyValueAccess` case.
- JavaScript truthiness in `orNoneIf` is modelled only for the values its signature admits (booleans, Maybes of booleans, and nullish values).
- The `instanceof Maybe` test of `of` (dist/Maybe.js:127, src/Maybe.ts:37) is replaced by the `Plain`/`Wrapped` tag. The model assumes that a `Plain` argument never carries a Maybe instance, and that a payload is never itself a `null` or `undefined` sentinel. Nothing in the types enforces this: with a payload type that contains Maybes (for example `Of<Maybe<int>>(Plain(Val(None())))`), the model's `of`, `map` and `orElse` wrap the inner Maybe as a present payload, where the library's `instanceof` test would return that inner instance itself.
- DistMaybe.Map: says only that an empty receiver gives an empty result, because the result's static type can differ from the receiver's; DistMaybe.MapNoneIsReceiver states "returns the receiver" when the two types agree.
- DistMaybe.Bind: says only that an empty receiver gives an empty result, for the same reason; DistMaybe.BindNoneIsReceiver states "returns the receiver" when the two types agree.
- SrcMaybe.Map: the transform keeps the payload type, as the declared signature `(v: T) => T` says; a transform that changes the runtime type is covered by DistMaybe.Map only.

=== FILE: agreement.dfy ===
/** The two revisions of the class agree: for every operation present in
    both, src/Maybe.ts and dist/Maybe.js give results that hold the same
    value. Where src builds a fresh empty Maybe and dist returns `this`, the
    two are equal as values.
 */
module Agreement {
  import opened JsValues
  import D = DistMaybe
  import S = SrcMaybe

  /** Instances of the two revisions that hold the same `_value`. */
  ghost predicate Same<T>(d: D.Maybe<T>, s: S.Maybe<T>) {
    d.value == s.value
  }

  /** `of` arguments of the two revisions that stand for the same value. */
  ghost predicate SameArg<T>(a: D.MaybeArg<T>, b: S.MaybeArg<T>) {
    match (a, b)
    case (Plain(x), Plain(y)) => x == y
    case (Wrapped(d), Wrapped(s)) => Same(d, s)
    case _ => false
  }

  /** The `_value` of a dist instance fixes its `_isValue` flag, so instances
      holding the same value are equal. */
  lemma SameIsEquality<T>(d1: D.Maybe<T>, d2: D.Maybe<T>, s: S.Maybe<T>)
    requires Same(d1, s) && Same(d2, s)
    ensures d1 == d2
  {
  }

  lemma OfAgrees<T>(a: D.MaybeArg<T>, b: S.MaybeArg<T>)
    requires SameArg(a, b)
    ensures Same(D.Of(a), S.Of(b))
  {
  }

  lemma NoneAgrees<T>()
    ensures Same(D.None<T>(), S.None<T>())
  {
  }

  lemma QueriesAgree<T>(d: D.Maybe<T>, s: S.Maybe<T>)
    requires Same(d, s)
    ensures D.IsNone(d) == S.IsNone(s)
    ensures D.HasValue(d) == S.HasValue(s)
    ensures D.Value(d) == S.Value(s)
  {
  }

  lemma MapAgrees<T>(d: D.Maybe<T>, s: S.Maybe<T>,
                     fd: T -> D.MaybeArg<T>, fs: T -> S.MaybeArg<T>)
    requires Same(d, s)
    requires forall v: T :: SameArg(fd(v), fs(v))
    ensures Same(D.Map(d, fd), S.Map(s, fs))
  {
    if D.HasValue(d) {
      OfAgrees(fd(d.value.x), fs(s.value.x));
    }
  }

  lemma OrElseAgrees<T>(d: D.Maybe<T>, s: S.Maybe<T>, a: D.MaybeArg<T>, b: S.MaybeArg<T>)
    requires Same(d, s) && SameArg(a, b)
    ensures Same(D.OrElse(d, a), S.OrElse(s, b))
  {
  }

  lemma OrValueAgrees<T>(d: D.Maybe<T>, s: S.Maybe<T>, a: D.MaybeArg<T>, b: S.MaybeArg<T>)
    requires Same(d, s) && SameArg(a, b)
    ensures D.OrValue(d, a) == S.OrValue(s, b)
  {
    OrElseAgrees(d, s, a, b);
  }

  lemma FilterAgrees<T>(d: D.Maybe<T>, s: S.Maybe<T>, p: T -> bool)
    requires Same(d, s)
    ensures Same(D.Filter(d, p), S.Filter(s, p))
  {
  }
}

=== FILE: dist_maybe.dfy ===
/** The Maybe class as compiled in dist/Maybe.js: the full revision, with
    `bind`, `orNull`, `orNoneIf` and the alias members.

    An instance holds the stored value `_value` and the flag `_isValue`, which
    the constructor computes once. Every operation is a pure function of the
    receiver and its arguments; where the class returns `this`, the model
    returns the receiver's value.

    `None` and `Some` below are the static `none()` and the `some` alias of
    `value()`, not the cases of `Reference.Maybe`; the two modules are never
    imported opened together.
 */
module DistMaybe {
  import opened JsValues

  /** The fields of an instance: `_value` and `_isValue`. */
  datatype Instance<T> = Instance(value: JsValue<T>, isValue: bool)

  /** What the constructor establishes and nothing afterwards changes: the
      slot never holds `undefined` (it is replaced by `null`), and the flag
      says whether the slot holds a non-nullish value. */
  predicate Consistent<T>(o: Instance<T>) {
    !o.value.Undefined? && o.isValue == !Nullish(o.value)
  }

  /** An instance as the constructor can produce it. */
  type Maybe<T> = o: Instance<T> | Consistent(o) witness Instance(Null, false)

  /** The argument of `of`: a Maybe instance or any other value. */
  type MaybeArg<T> = Arg<T, Maybe<T>>

  /** The constructor: a missing or `undefined` argument becomes `null`, and
      presence is decided here, once. */
  function New<T>(value: JsValue<T>): (r: Maybe<T>)
    ensures r.isValue <==> value.Val?
    ensures value.Val? ==> r.value == value
    ensures Nullish(value) ==> r.value == Null
  {
    var stored := if value.Undefined? then Null else value;
    Instance(stored, !Nullish(stored))
  }

  /** `isNone`: the Maybe is empty exactly when its slot is nullish. */
  function IsNone<T>(m: Maybe<T>): (b: bool)
    ensures b <==> Nullish(m.value)
    ensures b <==> m.value == Null
  {
    !m.isValue
  }

  /** `hasValue`: the exact complement of `isNone`. */
  function HasValue<T>(m: Maybe<T>): (b: bool)
    ensures b <==> m.value.Val?
    ensures b != IsNone(m)
  {
    !IsNone(m)
  }

  /** `value`: the stored value, or the empty-value error when there is none. */
  function Value<T>(m: Maybe<T>): (r: Unwrap<T>)
    ensures r.EmptyValueAccess? <==> IsNone(m)
    ensures r.Ok? ==> m.value == Val(r.value)
  {
    if IsNone(m) then EmptyValueAccess else Ok(m.value.x)
  }

  /** `this` handed back by an operation whose result has another static
      type. JavaScript has no such types, so it is the same object; here it
      is the instance with the same fields at the result type. Only an empty
      receiver is handed back this way. */
  function Recast<T, U>(m: Maybe<T>): (r: Maybe<U>)
    requires IsNone(m)
    ensures IsNone(r)
  {
    Instance(Null, false)
  }

  /** `bind`: the function's own Maybe, not rewrapped, when a value is
      present; the empty receiver otherwise. */
  function Bind<T, U>(m: Maybe<T>, bindFn: T -> Maybe<U>): (r: Maybe<U>)
    ensures HasValue(m) ==> r == bindFn(m.value.x)
    ensures IsNone(m) ==> IsNone(r)
  {
    if HasValue(m) then bindFn(m.value.x) else Recast(m)
  }

  /** `flatMap`, the alias the Monad base class binds to `bind`. */
  function FlatMap<T, U>(m: Maybe<T>, bindFn: T -> Maybe<U>): (r: Maybe<U>)
    ensures HasValue(m) ==> r == bindFn(m.value.x)
    ensures IsNone(m) ==> IsNone(r)
  {
    Bind(m, bindFn)
  }

  /** `map`: the transform's result passed through `of` when a value is
      present, so a nullish result empties the Maybe and a Maybe result is
      returned as it is; the empty receiver otherwise. */
  function Map<T, U>(m: Maybe<T>, transform: T -> MaybeArg<U>): (r: Maybe<U>)
    ensures IsNone(m) ==> IsNone(r)
    ensures HasValue(m) && transform(m.value.x).Wrapped? ==> r == transform(m.value.x).m
    ensures HasValue(m) && transform(m.value.x).Plain? ==>
              (HasValue(r) <==> transform(m.value.x).v.Val?) &&
              (HasValue(r) ==> r.value == transform(m.value.x).v)
  {
    if IsNone(m) then Recast(m) else Of(transform(m.value.x))
  }

  /** `orElse`: the receiver when it holds a value, otherwise the fallback
      resolved by `of`. */
  function OrElse<T>(m: Maybe<T>, other: MaybeArg<T>): (r: Maybe<T>)
    ensures HasValue(m) ==> r == m
    ensures IsNone(m) && other.Wrapped? ==> r == other.m
    ensures IsNone(m) && other.Plain? ==>
              (HasValue(r) <==> other.v.Val?) && (HasValue(r) ==> r.value == other.v)
  {
    if IsNone(m) then Of(other) else m
  }

  /** `orValue`: `orElse` unwrapped. It fails only when both the receiver and
      the fallback are empty. */
  function OrValue<T>(m: Maybe<T>, other: MaybeArg<T>): (r: Unwrap<T>)
    ensures HasValue(m) ==> r == Ok(m.value.x)
    ensures IsNone(m) && other.Plain? && other.v.Val? ==> r == Ok(other.v.x)
    ensures IsNone(m) && other.Wrapped? && HasValue(other.m) ==> r == Ok(other.m.value.x)
    ensures r.EmptyValueAccess? <==> IsNone(m) && IsNone(Of(other))
  {
    Value(OrElse(m, other))
  }

  /** `orNull`: the value or `null`, never failing; since an empty instance
      stores `null`, this is always the stored slot. */
  function OrNull<T>(m: Maybe<T>): (r: JsValue<T>)
    ensures r == m.value
    ensures r.Null? <==> IsNone(m)
  {
    if IsNone(m) then Null else m.value
  }

  /** `filter`, written in the class through `bind`: the receiver when it
      holds a value the predicate accepts, an empty Maybe otherwise. */
  function Filter<T>(m: Maybe<T>, pred: T -> bool): (r: Maybe<T>)
    ensures HasValue(r) <==> HasValue(m) && pred(m.value.x)
    ensures HasValue(r) ==> r == m
    ensures IsNone(r) ==> r == None()
  {
    Bind(m, v => if pred(v) then m else None())
  }

  /** `orNoneIf`: empty when the flag, resolved by `of` and read back with
      `orNull`, is `true`; the receiver otherwise. Of the values the flag can
      take (a boolean, a Maybe of one, or a nullish value) only `true` is
      truthy in JavaScript. */
  function OrNoneIf<T>(m: Maybe<T>, flag: MaybeArg<bool>): (r: Maybe<T>)
    ensures flag.Plain? ==> r == (if flag.v == Val(true) then None() else m)
    ensures flag.Wrapped? ==> r == (if flag.m.value == Val(true) then None() else m)
  {
    if OrNull(Of(flag)) == Val(true) then None() else m
  }

  /** The static `of`: an `undefined` or missing argument is read as `null`;
      an existing Maybe is returned unchanged; anything else is wrapped. */
  function Of<T>(value: MaybeArg<T>): (r: Maybe<T>)
    ensures value.Wrapped? ==> r == value.m
    ensures value.Plain? ==> (HasValue(r) <==> value.v.Val?)
    ensures value.Plain? && value.v.Val? ==> r.value == value.v
  {
    var arg: MaybeArg<T> := if value.Plain? && value.v.Undefined? then Plain(Null) else value;
    match arg
    case Wrapped(m) => m
    case Plain(v) => New(v)
  }

  /** The static `none`: an empty Maybe. */
  function None<T>(): (r: Maybe<T>)
    ensures IsNone(r)
    ensures r.value == Null
  {
    Of(Plain(Null))
  }

  /** `isSome`, bound at construction to `hasValue`. */
  function IsSome<T>(m: Maybe<T>): (b: bool)
    ensures b <==> m.value.Val?
  {
    HasValue(m)
  }

  /** `isNothing`, bound at construction to `isNone`. */
  function IsNothing<T>(m: Maybe<T>): (b: bool)
    ensures b <==> Nullish(m.value)
  {
    IsNone(m)
  }

  /** `some`, bound at construction to `value`. */
  function Some<T>(m: Maybe<T>): (r: Unwrap<T>)
    ensures r.EmptyValueAccess? <==> IsNone(m)
    ensures r.Ok? ==> m.value == Val(r.value)
  {
    Value(m)
  }

  /** `orSome`, bound at construction to `orValue`. */
  function OrSome<T>(m: Maybe<T>, other: MaybeArg<T>): (r: Unwrap<T>)
    ensures HasValue(m) ==> r == Ok(m.value.x)
    ensures IsNone(m) && other.Plain? && other.v.Val? ==> r == Ok(other.v.x)
    ensures IsNone(m) && other.Wrapped? && HasValue(other.m) ==> r == Ok(other.m.value.x)
    ensures r.EmptyValueAccess? <==> IsNone(m) && IsNone(Of(other))
  {
    OrValue(m, other)
  }

  /** Successive `map` calls with the given transforms, first to last, as the
      chained-map tests write them. */
  function MapSequence<T>(m: Maybe<T>, transforms: seq<T -> MaybeArg<T>>): (r: Maybe<T>)
    ensures IsNone(m) ==> r == m
    decreases |transforms|
  {
    if |transforms| == 0 then m
    else MapSequence(Map(m, transforms[0]), transforms[1..])
  }

  // Properties relating several calls.

  /** With the same static type, the empty receiver of `map` comes back as it was. */
  lemma MapNoneIsReceiver<T>(m: Maybe<T>, transform: T -> MaybeArg<T>)
    requires IsNone(m)
    ensures Map(m, transform) == m
  {
  }

  /** With the same static type, the empty receiver of `bind` comes back as it was. */
  lemma BindNoneIsReceiver<T>(m: Maybe<T>, bindFn: T -> Maybe<T>)
    requires IsNone(m)
    ensures Bind(m, bindFn) == m
  {
  }

  /** `of` is idempotent: wrapping a Maybe again changes nothing. */
  lemma OfIdempotent<T>(value: MaybeArg<T>)
    ensures Of(Wrapped(Of(value))) == Of(value)
  {
  }

  /** `of()`, `of(undefined)` and `of(null)` all give the empty Maybe that
      `none()` gives. */
  lemma OfNullishIsNone<T>(value: JsValue<T>)
    requires Nullish(value)
    ensures Of(Plain(value)) == None<T>()
  {
  }

  /** `of(v).value()` is `v` for every non-nullish `v`. */
  lemma OfValueRoundTrip<T>(x: T)
    ensures HasValue(Of(Plain(Val(x))))
    ensures Value(Of(Plain(Val(x)))) == Ok(x)
  {
  }

  /** Two maps whose transforms return plain values compose:
      `of(v).map(f).map(g).value() == g(f(v))`. */
  lemma MapComposes<T>(x: T, f: T -> MaybeArg<T>, g: T -> MaybeArg<T>)
    requires f(x).Plain? && f(x).v.Val?
    requires g(f(x).v.x).Plain? && g(f(x).v.x).v.Val?
    ensures Value(Map(Map(Of(Plain(Val(x))), f), g)) == Ok(g(f(x).v.x).v.x)
  {
  }

  /** `filter` never makes an empty Maybe present, whatever the predicate. */
  lemma FilterKeepsNone<T>(m: Maybe<T>, pred: T -> bool)
    requires IsNone(m)
    ensures IsNone(Filter(m, pred))
  {
  }

  /** Mapping with a concatenation of transforms is mapping with the first
      part and then with the second. */
  lemma {:induction false} MapSequenceAppend<T>(m: Maybe<T>, first: seq<T -> MaybeArg<T>>,
                                                 second: seq<T -> MaybeArg<T>>)
    ensures MapSequence(m, first + second) == MapSequence(MapSequence(m, first), second)
    decreases |first|
  {
    if |first| == 0 {
      assert first + second == second;
    } else {
      assert (first + second)[1..] == first[1..] + second;
      MapSequenceAppend(Map(m, first[0]), first[1..], second);
    }
  }

  /** A transform that returns a nullish value empties the Maybe for the
      rest of the sequence, whatever follows. */
  lemma NullTransformEmpties<T>(m: Maybe<T>, transforms: seq<T -> MaybeArg<T>>, i: nat)
    requires i < |transforms|
    requires forall x: T :: transforms[i](x).Plain? && Nullish(transforms[i](x).v)
    ensures IsNone(MapSequence(m, transforms))
  {
    var prefix, rest := transforms[..i], transforms[i + 1..];
    assert transforms == prefix + ([transforms[i]] + rest);
    MapSequenceAppend(m, prefix, [transforms[i]] + rest);
    var mid := MapSequence(m, prefix);
    assert IsNone(Map(mid, transforms[i]));
    assert MapSequence(mid, [transforms[i]] + rest) == MapSequence(Map(mid, transforms[i]), rest);
  }
}

=== FILE: js_values.dfy ===
/** The JavaScript values the Maybe container deals in.

    The library decides presence by comparing a stored value with the two
    nullish sentinels `null` and `undefined`; everything else is a payload.
    Its factory `of` additionally accepts an existing Maybe instance, which it
    recognises with `instanceof`, and `value()` throws on an empty container.
 */
module JsValues {

  /** A value held in a Maybe's slot: one of the two sentinels, or a payload. */
  datatype JsValue<T> = Undefined | Null | Val(x: T)

  /** True of `null` and `undefined`, the values the library treats as absence. */
  predicate Nullish<T>(v: JsValue<T>) {
    v.Undefined? || v.Null?
  }

  /** The untyped argument of `of` (and the result of a `map` transform):
      an instance `M` of the Maybe class, or any other value. The tag stands
      in for the runtime `instanceof` test; the model assumes a `Plain`
      argument never holds a Maybe instance, and a payload is never a nullish
      sentinel. With a payload type that contains Maybes, `Plain` wraps such
      an instance where `instanceof` would return it. */
  datatype Arg<T, M> = Plain(v: JsValue<T>) | Wrapped(m: M)

  /** The outcome of unwrapping with `value()`: the held value, or the single
      error the library raises, an attempt to read the value of an empty Maybe. */
  datatype Unwrap<T> = Ok(value: T) | EmptyValueAccess
}

=== FILE: reference.dfy ===
/** The Maybe container as a tagged variant: absence is a case of its own
    rather than a `null` in the slot. Its operations state what each method
    of the class does, case by case, and serve as the reference the
    JavaScript object model is proved against.
 */
module Reference {
  import opened JsValues

  datatype Maybe<T> = None | Some(v: T)

  /** The argument of `of`: a Maybe or any other value. */
  type MaybeArg<T> = Arg<T, Maybe<T>>

  /** `of`: a Maybe is returned itself; a plain value is present exactly
      when it is a payload. */
  function Of<T>(a: MaybeArg<T>): (r: Maybe<T>)
    ensures a.Wrapped? ==> r == a.m
    ensures a.Plain? ==> (r.Some? <==> a.v.Val?)
    ensures a.Plain? && r.Some? ==> a.v == Val(r.v)
  {
    match a
    case Wrapped(m) => m
    case Plain(Val(x)) => Some(x)
    case Plain(_) => None
  }

  /** `value`: the held value; the empty-value error exactly on `None`. */
  function Value<T>(m: Maybe<T>): (r: Unwrap<T>)
    ensures r.EmptyValueAccess? <==> m.None?
    ensures r.Ok? ==> m == Some(r.value)
  {
    match m
    case Some(v) => Ok(v)
    case None => EmptyValueAccess
  }

  /** `bind`: the function's own result, not rewrapped; `None` stays `None`.
      There is no receiver to hand back at another type, only `None`. */
  function Bind<T, U>(m: Maybe<T>, f: T -> Maybe<U>): (r: Maybe<U>)
    ensures m.Some? ==> r == f(m.v)
    ensures m.None? ==> r.None?
  {
    match m
    case Some(v) => f(v)
    case None => None
  }

  /** `map`: the transform's result resolved as by `of`; `None` stays `None`. */
  function Map<T, U>(m: Maybe<T>, f: T -> MaybeArg<U>): (r: Maybe<U>)
    ensures m.None? ==> r.None?
    ensures m.Some? && f(m.v).Wrapped? ==> r == f(m.v).m
    ensures m.Some? && f(m.v).Plain? ==> (r.Some? <==> f(m.v).v.Val?)
    ensures m.Some? && f(m.v).Plain? && r.Some? ==> f(m.v).v == Val(r.v)
  {
    match m
    case Some(v) => Of(f(v))
    case None => None
  }

  /** `orElse`: the receiver when present, else the resolved fallback. */
  function OrElse<T>(m: Maybe<T>, other: MaybeArg<T>): (r: Maybe<T>)
    ensures m.Some? ==> r == m
    ensures r.Some? <==> m.Some? || Of(other).Some?
    ensures m.None? && other.Wrapped? ==> r == other.m
    ensures m.None? && other.Plain? && other.v.Val? ==> r == Some(other.v.x)
  {
    match m
    case Some(_) => m
    case None => Of(other)
  }

  /** `orValue`: the receiver's value, else the fallback's; the error
      exactly when neither holds one. */
  function OrValue<T>(m: Maybe<T>, other: MaybeArg<T>): (r: Unwrap<T>)
    ensures m.Some? ==> r == Ok(m.v)
    ensures m.None? && other.Plain? && other.v.Val? ==> r == Ok(other.v.x)
    ensures m.None? && other.Wrapped? && other.m.Some? ==> r == Ok(other.m.v)
    ensures r.EmptyValueAccess? <==> m.None? && Of(other).None?
  {
    match m
    case Some(v) => Ok(v)
    case None => Value(Of(other))
  }

  /** `orNull`: the value as a payload, or `null`; never `undefined`. */
  function OrNull<T>(m: Maybe<T>): (r: JsValue<T>)
    ensures r.Null? <==> m.None?
    ensures m.Some? ==> r == Val(m.v)
    ensures !r.Undefined?
  {
    match m
    case Some(v) => Val(v)
    case None => Null
  }

  /** `filter`: the receiver exactly when it is present and accepted. */
  function Filter<T>(m: Maybe<T>, p: T -> bool): (r: Maybe<T>)
    ensures r.Some? <==> m.Some? && p(m.v)
    ensures r.Some? ==> r == m
  {
    match m
    case Some(v) => if p(v) then m else None
    case None => None
  }

  /** `orNoneIf`: JavaScript truthiness of the flag read back through `of`
      and `orNull`; only `true`, bare or wrapped, is truthy. */
  function OrNoneIf<T>(m: Maybe<T>, flag: MaybeArg<bool>): (r: Maybe<T>)
    ensures flag == Plain(Val(true)) || flag == Wrapped(Some(true)) ==> r.None?
    ensures flag != Plain(Val(true)) && flag != Wrapped(Some(true)) ==> r == m
  {
    if Of(flag) == Some(true) then None else m
  }
}

=== FILE: refinement.dfy ===
/** The object model of dist/Maybe.js against the tagged-variant reference.

    `Abs` reads an instance as a reference value: present exactly when the
    `_isValue` flag is set. It is a bijection, so nothing about an instance
    is lost, and every operation of the class commutes with it.
 */
module Refinement {
  import opened JsValues
  import D = DistMaybe
  import R = Reference

  /** The reference value an instance stands for. */
  function Abs<T>(m: D.Maybe<T>): (r: R.Maybe<T>)
    ensures r.Some? <==> D.HasValue(m)
    ensures r.Some? ==> m.value == Val(r.v)
  {
    if m.isValue then R.Some(m.value.x) else R.None
  }

  /** The one instance that stands for a reference value. */
  function Concrete<T>(r: R.Maybe<T>): (m: D.Maybe<T>)
    ensures D.HasValue(m) <==> r.Some?
    ensures r.Some? ==> m.value == Val(r.v)
  {
    match r
    case Some(v) => D.Of(Plain(Val(v)))
    case None => D.None()
  }

  /** An `of` argument read in reference terms. */
  function AbsArg<T>(a: D.MaybeArg<T>): (r: R.MaybeArg<T>)
    ensures a.Plain? <==> r.Plain?
    ensures a.Plain? ==> r.v == a.v
    ensures a.Wrapped? ==> r.m == Abs(a.m)
  {
    match a
    case Plain(v) => Plain(v)
    case Wrapped(m) => Wrapped(Abs(m))
  }

  /** Reading an instance and building one back gives the same instance. */
  lemma ConcreteAbs<T>(m: D.Maybe<T>)
    ensures Concrete(Abs(m)) == m
  {
  }

  /** Building an instance and reading it back gives the same reference value. */
  lemma AbsConcrete<T>(r: R.Maybe<T>)
    ensures Abs(Concrete(r)) == r
  {
  }

  lemma OfRefines<T>(a: D.MaybeArg<T>)
    ensures Abs(D.Of(a)) == R.Of(AbsArg(a))
  {
  }

  lemma NoneRefines<T>()
    ensures Abs(D.None<T>()) == R.None
  {
  }

  lemma ValueRefines<T>(m: D.Maybe<T>)
    ensures D.Value(m) == R.Value(Abs(m))
  {
  }

  lemma BindRefines<T, U>(m: D.Maybe<T>, f: T -> D.Maybe<U>)
    ensures Abs(D.Bind(m, f)) == R.Bind(Abs(m), v => Abs(f(v)))
  {
  }

  lemma MapRefines<T, U>(m: D.Maybe<T>, f: T -> D.MaybeArg<U>)
    ensures Abs(D.Map(m, f)) == R.Map(Abs(m), v => AbsArg(f(v)))
  {
  }

  lemma OrElseRefines<T>(m: D.Maybe<T>, other: D.MaybeArg<T>)
    ensures Abs(D.OrElse(m, other)) == R.OrElse(Abs(m), AbsArg(other))
  {
  }

  lemma OrValueRefines<T>(m: D.Maybe<T>, other: D.MaybeArg<T>)
    ensures D.OrValue(m, other) == R.OrValue(Abs(m), AbsArg(other))
  {
  }

  lemma OrNullRefines<T>(m: D.Maybe<T>)
    ensures D.OrNull(m) == R.OrNull(Abs(m))
  {
  }

  lemma FilterRefines<T>(m: D.Maybe<T>, p: T -> bool)
    ensures Abs(D.Filter(m, p)) == R.Filter(Abs(m), p)
  {
  }

  lemma OrNoneIfRefines<T>(m: D.Maybe<T>, flag: D.MaybeArg<bool>)
    ensures Abs(D.OrNoneIf(m, flag)) == R.OrNoneIf(Abs(m), AbsArg(flag))
  {
  }
}

=== FILE: scenarios.dfy ===
/** The concrete cases of src/Maybe.spec.ts, stated about the model of
    dist/Maybe.js (the revision that has every method the cases call; the
    Agreement module carries the shared ones over to src/Maybe.ts). */
module Scenarios {
  import opened JsValues
  import opened DistMaybe

  /** A JavaScript primitive as the `typeof` cases need it. */
  datatype Prim = Num(n: int) | Str(s: string)

  function IsNumber(p: Prim): (b: bool) {
    p.Num?
  }

  function Lit(n: int): (r: MaybeArg<int>) {
    Plain(Val(n))
  }

  lemma PresenceQueries()
    ensures Value(Of(Lit(10))) == Ok(10)
    ensures IsNone(None<int>()) && !HasValue(None<int>())
    ensures HasValue(Of(Lit(10))) && !IsNone(Of(Lit(10)))
    ensures Value(None<int>()) == EmptyValueAccess
  {
  }

  lemma BindReturnsInnerMaybe()
    ensures Value(Bind(Of(Lit(10)), (v: int) => Of(Lit(5)))) == Ok(5)
  {
  }

  lemma MapOnce()
    ensures Value(Map(Of(Lit(10)), (v: int) => Lit(v + 5))) == Ok(15)
    ensures IsNone(Map(None<int>(), (v: int) => Lit(v + 5)))
  {
  }

  lemma ElseFallbacks()
    ensures Value(OrElse(None(), Lit(10))) == Ok(10)
    ensures Value(OrElse(Of(Lit(15)), Lit(10))) == Ok(15)
    ensures OrNull(None<int>()) == Null
    ensures OrNull(Of(Lit(10))) == Val(10)
  {
  }

  lemma ValueFallbacks()
    ensures OrValue(Of(Lit(10)), Lit(15)) == Ok(10)
    ensures OrValue(None(), Lit(15)) == Ok(15)
  {
  }

  lemma FilterByType()
    ensures Value(Filter(Of(Plain(Val(Num(10)))), IsNumber)) == Ok(Num(10))
    ensures IsNone(Filter(Of(Plain(Val(Str("test")))), IsNumber))
    ensures IsNone(Filter(None(), IsNumber))
  {
  }

  lemma NoneIfFlag()
    ensures IsNone(OrNoneIf(Of(Lit(10)), Plain(Val(true))))
    ensures Value(OrNoneIf(Of(Lit(10)), Plain(Val(false)))) == Ok(10)
  {
  }

  lemma ChainedMaps()
    ensures var r := MapSequence(Of(Lit(10)), [v => Lit(v + 5), v => Lit(v - 10), v => Lit(v + 100)]);
            HasValue(r) && Value(r) == Ok(105)
    ensures IsNone(MapSequence(Of(Lit(10)), [v => Lit(v + 5), v => Plain(Null), v => Lit(v + 100)]))
  {
  }
}

=== FILE: src_maybe.dfy ===
/** The Maybe class of src/Maybe.ts: the smaller source revision, without
    `bind`, `orNull`, `orNoneIf` or the aliases.

    An instance holds only the stored value `_value`; presence is recomputed
    from it on every query. Where `map` and `filter` build a fresh empty
    Maybe instead of returning `this`, the model cannot tell the two apart,
    since it compares instances by value.
 */
module SrcMaybe {
  import opened JsValues

  /** The one field of an instance, `_value`. */
  datatype Instance<T> = Instance(value: JsValue<T>)

  /** An instance as the constructor can produce it: its parameter defaults
      to `null`, so an `undefined` argument is never stored. */
  type Maybe<T> = o: Instance<T> | !o.value.Undefined? witness Instance(Null)

  /** The argument of `of`: a Maybe instance or any other value. */
  type MaybeArg<T> = Arg<T, Maybe<T>>

  /** The constructor, whose parameter defaults to `null`. */
  function New<T>(value: JsValue<T>): (r: Maybe<T>)
    ensures value.Val? ==> r.value == value
    ensures Nullish(value) ==> r.value == Null
  {
    Instance(if value.Undefined? then Null else value)
  }

  /** `isNone`: the slot holds `null` or `undefined`; the latter cannot
      occur, so it holds exactly when the slot is `null`. */
  function IsNone<T>(m: Maybe<T>): (b: bool)
    ensures b <==> m.value == Null
    ensures b <==> !m.value.Val?
  {
    m.value.Null? || m.value.Undefined?
  }

  /** `hasValue`: the negation of `isNone`. */
  function HasValue<T>(m: Maybe<T>): (b: bool)
    ensures b <==> m.value.Val?
  {
    !IsNone(m)
  }

  /** `value`: the stored value, or the empty-value error when there is none. */
  function Value<T>(m: Maybe<T>): (r: Unwrap<T>)
    ensures r.EmptyValueAccess? <==> m.value == Null
    ensures r.Ok? ==> m.value == Val(r.value)
  {
    if IsNone(m) then EmptyValueAccess else Ok(m.value.x)
  }

  /** `map`: a fresh empty Maybe when there is no value; otherwise the
      transform's result passed through `of`, so a nullish result empties
      the Maybe and a Maybe result is returned as it is. The declared
      transform keeps the payload type. */
  function Map<T>(m: Maybe<T>, transform: T -> MaybeArg<T>): (r: Maybe<T>)
    ensures IsNone(m) ==> r == m
    ensures HasValue(m) && transform(m.value.x).Wrapped? ==> r == transform(m.value.x).m
    ensures HasValue(m) && transform(m.value.x).Plain? ==>
              (HasValue(r) <==> transform(m.value.x).v.Val?) &&
              (HasValue(r) ==> r.value == transform(m.value.x).v)
  {
    if IsNone(m) then None() else Of(transform(m.value.x))
  }

  /** `orElse`: the receiver when it holds a value, otherwise the fallback
      resolved by `of`. */
  function OrElse<T>(m: Maybe<T>, other: MaybeArg<T>): (r: Maybe<T>)
    ensures HasValue(m) ==> r == m
    ensures IsNone(m) && other.Wrapped? ==> r == other.m
    ensures IsNone(m) && other.Plain? && other.v.Val? ==> r.value == other.v
    ensures IsNone(m) && other.Plain? && Nullish(other.v) ==> r == None()
  {
    if IsNone(m) then Of(other) else m
  }

  /** `orValue`: `orElse` unwrapped; the receiver's value, else a non-nullish
      fallback, else the empty-value error. */
  function OrValue<T>(m: Maybe<T>, other: MaybeArg<T>): (r: Unwrap<T>)
    ensures HasValue(m) ==> r == Ok(m.value.x)
    ensures IsNone(m) && other.Plain? && other.v.Val? ==> r == Ok(other.v.x)
    ensures IsNone(m) && other.Plain? && Nullish(other.v) ==> r == EmptyValueAccess
    ensures IsNone(m) && other.Wrapped? ==> r == Value(other.m)
  {
    Value(OrElse(m, other))
  }

  /** `filter`: the receiver when it holds a value the predicate accepts, a
      fresh empty Maybe otherwise. */
  function Filter<T>(m: Maybe<T>, pred: T -> bool): (r: Maybe<T>)
    ensures HasValue(r) <==> HasValue(m) && pred(m.value.x)
    ensures HasValue(r) ==> r == m
    ensures IsNone(r) ==> r == None()
  {
    if !IsNone(m) && pred(m.value.x) then m else None()
  }

  /** The static `of`: an existing Maybe is returned unchanged; anything
      else is wrapped by the constructor. */
  function Of<T>(value: MaybeArg<T>): (r: Maybe<T>)
    ensures value.Wrapped? ==> r == value.m
    ensures value.Plain? ==> (HasValue(r) <==> value.v.Val?)
    ensures value.Plain? && value.v.Val? ==> r.value == value.v
  {
    match value
    case Wrapped(m) => m
    case Plain(v) => New(v)
  }

  /** The static `none`: `of(null)`, an empty Maybe. */
  function None<T>(): (r: Maybe<T>)
    ensures IsNone(r)
    ensures r.value == Null
  {
    Of(Plain(Null))
  }

  /** `of` returns a Maybe argument unchanged, so wrapping twice is wrapping once. */
  lemma OfIdempotent<T>(value: MaybeArg<T>)
    ensures Of(Wrapped(Of(value))) == Of(value)
  {
  }
}
